=== FILE: README.md ===
# hyper-statusline, modelled in Dafny

hyper-statusline is a plugin for the Hyper terminal. It shows the working
directory of the active terminal session in a status bar, together with a
summary of the git repository there. The summary holds:

- the branch and the remote URL;
- whether a merge is in progress;
- the untracked, dirty and staged file counts;
- how many commits the branch is ahead of or behind its upstream.

This project models the plugin's logic in `index.js`:

- the module-level state `pid`, `cwd` and `git`;
- `setCwd`, which resolves the session's directory;
- the repository detector `isGit`;
- the eight status probes;
- the remote-URL normaliser;
- the join `gitCheck` and the transition `setGit`;
- the Redux middleware that decides when any of this happens.

It then proves properties of that model.

Every external command becomes a parameter: the output of `lsof`, the output
of each `git` command, and whether `.git/MERGE_HEAD` exists. `exec` reports
whether the command failed and, either way, its standard output. Each
middleware call, together with the refresh it triggers, completes as one step.
Outside Windows, `cwd` and `git` move only in later `exec` callbacks, after
`next(action)` has already forwarded the action. On Windows `cwd` moves during
the call, before `next(action)`, and only `git` moves later.

Modules, one per file:

| file | module | what it holds |
|---|---|---|
| `maybe.dfy` | `Maybe` | `Option` and `Result` |
| `js_string.dfy` | `JsString` | the JavaScript string built-ins the code relies on: `trim`, `indexOf`, `split` with a one-character separator, `parseInt(s, 10)` |
| `remote_url.dfy` | `RemoteUrl` | the three regular-expression rewrites of `gitRemote` |
| `git_status.dfy` | `GitStatus` | the probes, the `after-all-results` join, `gitCheck`, `setGit` |
| `working_dir.dfy` | `WorkingDir` | the session state, the Windows drive-path expression, `setCwd` |
| `middleware.dfy` | `Middleware` | the action switch, one step of the middleware, runs over traces of actions |

The model follows the code as written, and some of the code's behaviour is
easy to miss:

- `ahead` and `behind` are whatever `parseInt` returns. A branch without an
  upstream makes `rev-list` print nothing, so they become NaN, modelled as
  `None`, not 0.
- `gitRemote` and `gitMerging` never pass an error to the join. Only the
  branch, untracked, dirty and staged probes can fail it.
- The `lsof` callback ignores its error. A failed `lsof` still overwrites
  `cwd`, with the trimmed output, which may be empty.
- The URL normaliser removes at most one user-info run and at most one
  trailing `.git`. It is therefore not idempotent.
- The class `[A-z0-9\-]` also admits the six characters `` [ \ ] ^ _ ` ``.
- A data chunk counts as the enter key only when it contains a newline and
  does not start with one (`indexOf('\n') > 0`).
- When the join fails, `setGit` throws inside the callback before assigning.
  `git` therefore keeps its previous value.

## Model

| member | source | states |
|---|---|---|
| JsString.Trim | index.js:185 | the result has no white space or line terminator at either end; it is the slice of the input that starts after the leading such characters, and only such characters follow it |
| JsString.TrimStartSkips | index.js:250 | removing leading white space from white space followed by a non-white start gives back exactly that start |
| JsString.TrimUnique | index.js:203 | whenever the input splits into white space, a trimmed core and white space, `trim` returns exactly that core |
| JsString.TrimIdempotent | index.js:203 | trimming a trimmed string changes nothing |
| JsString.IndexOf | index.js:426 | -1 exactly when the character is absent; otherwise an index holding the character with no earlier occurrence |
| JsString.Split | index.js:224 | at least one piece; no piece contains the separator; joining the pieces with the separator gives back the input |
| JsString.SplitLength | index.js:224 | the number of pieces is one more than the number of separators in the input |
| JsString.DigitPrefix | index.js:250 | the longest prefix made only of decimal digits |
| JsString.ReadSignedDigits | index.js:250 | NaN exactly when no digit follows the optional sign; otherwise the value of the longest digit run after the sign, negated after a minus |
| JsString.UnsignedOfParts | index.js:250 | the optional sign is taken off only once, and the minus belongs to that sign |
| JsString.ReadSignedDigitsOfParts | index.js:250 | a sign or none, a digit run, then a non-digit reads as the run's value, negated after a minus: `+5` is 5, `007` is 7, `12abc` is 12 |
| JsString.ReadSignedDigitsWithoutDigit | index.js:250 | with no digit right after the optional sign the result is NaN: `a5`, `+`, `-x` and empty text |
| JsString.ParseInt | index.js:250 | `parseInt(s, 10)` as leading white space skipped, then signed digits read; its meaning is carried by ReadSignedDigits, ParseIntReadsIntString and ParseIntWithoutDigits |
| JsString.DecimalString | index.js:249 | the decimal spelling of a count is non-empty, all digits, and has no leading zero |
| JsString.DecimalStringValue | index.js:249 | the digits of that spelling have the count as their value |
| JsString.DigitPrefixStops | index.js:250 | a digit run followed by a non-digit is exactly the digit prefix |
| JsString.ReadSignedDigitsOfIntString | index.js:250 | an optional minus sign and digits, followed by a non-digit, are read back as the integer they spell |
| JsString.ParseIntReadsIntString | index.js:250 | `parseInt` reads back any integer's spelling, whatever white space precedes it and whatever non-digit follows |
| JsString.ParseIntReadsCount | index.js:256 | a count as `rev-list --count` prints it, followed by a non-digit, is read back as that count |
| JsString.ParseIntWithoutDigits | index.js:256 | text without any digit, the empty output included, yields NaN |
| RemoteUrl.NormalizeRemote | index.js:209 | the three rewrites in order; its meaning is carried by NormalizeIdentity, NormalizeScpUrl, NormalizeLeadingUserInfo and the not-idempotent lemmas |
| RemoteUrl.FindSshColon | index.js:209 | the lazy group of `^git@(.*?):` stops at the first colon it may reach, and no colon is reachable when it finds none |
| RemoteUrl.SshColon | index.js:209 | the first step matches exactly when the URL starts with `git@` and a colon follows with no line terminator before it; the match is the shortest one |
| RemoteUrl.RewriteSsh | index.js:209 | a URL the first expression does not match is left unchanged |
| RemoteUrl.RewriteScpUrl | index.js:209 | `git@host:path` becomes `https://host/path` for a host without colons or line terminators |
| RemoteUrl.UserRunEnd | index.js:209 | the greedy run of `[A-z0-9\-]` from a start ends at the first character outside the class |
| RemoteUrl.UserInfoAtRunEnd | index.js:209 | from a given start, `[A-z0-9\-]+@` can only match up to the end of that run |
| RemoteUrl.FindUserInfo | index.js:209 | finds the leftmost match of `[A-z0-9\-]+@`, or reports that there is none |
| RemoteUrl.StripUserInfo | index.js:209 | the second step changes the URL exactly when `[A-z0-9\-]+@` matches somewhere; a URL without `@` is unchanged |
| RemoteUrl.StripUserInfoLeftmost | index.js:209 | exactly the leftmost match is cut out, and the rest is kept |
| RemoteUrl.UserCharRange | index.js:209 | the class admits every character from `Z` to `a`, including `` [ \ ] ^ _ ` ``; it excludes `@ . : /` |
| RemoteUrl.StripGitSuffix | index.js:209 | a URL ending in `.git` loses exactly those four characters; any other URL is unchanged |
| RemoteUrl.StripGitSuffixOfGitPath | index.js:209 | adding `.git` and stripping it gives back the path |
| RemoteUrl.StripGitSuffixAfterSlash | index.js:209 | stripping `.git` after a `/` leaves the part in front of the slash alone |
| RemoteUrl.NormalizeIdentity | index.js:209 | a URL without `@` that does not end in `.git` passes through unchanged |
| RemoteUrl.NoAtSignSkipsFirstSteps | index.js:209 | without `@` the first two steps do nothing |
| RemoteUrl.NormalizeScpUrl | index.js:209 | for a host and a path that contain no `@`, and a host with no colon and no line terminator, `git@host:path` normalises to `https://host/` followed by the path without one trailing `.git` |
| RemoteUrl.NormalizeExampleRemote | index.js:209 | `git@example.com:org/repo.git` normalises to `https://example.com/org/repo` |
| RemoteUrl.NormalizeStripsOneGitSuffix | index.js:209 | one trailing `.git` is removed from a URL without `@` |
| RemoteUrl.NormalizeNotIdempotentOnGitSuffix | index.js:209 | `p.git.git` normalises to `p.git`, and normalising again gives `p`; the normaliser is not idempotent |
| RemoteUrl.UserRunEndAtSign | index.js:209 | in `u@rest` with `u` inside the class, the run ends at the `@` |
| RemoteUrl.UserPrefixIsNotScp | index.js:209 | for `u` made only of `[A-z0-9\-]` characters and other than `git`, `u@rest` is never rewritten as an scp-style URL |
| RemoteUrl.StripUserInfoLeading | index.js:209 | user info at the front, followed by `@`, is removed |
| RemoteUrl.EndsWithGitAfterAtSign | index.js:209 | putting `u@` in front of a rest without `@` does not make it end in `.git` |
| RemoteUrl.NormalizeLeadingUserInfo | index.js:209 | for a non-empty `u` made only of `[A-z0-9\-]` characters and other than `git`, and a `rest` not ending in `.git`, `u@rest` normalises to `rest` |
| RemoteUrl.NormalizeStripsOneUserInfo | index.js:209 | for non-empty `u1` and `u2` made only of `[A-z0-9\-]` characters and other than `git`, and a `rest` without `@` not ending in `.git`, `u1@u2@rest` loses only `u1@`; a second pass loses `u2@` as well |
| GitStatus.IsGit | index.js:191-195 | a directory is a work tree exactly when the command did not fail; SetGit states what each answer does to `git` |
| GitStatus.MergingProbe | index.js:213-217 | whether `MERGE_HEAD` exists, never an error; GitCheck and JoinFailureHasCause state that it cannot fail the join |
| GitStatus.LineCount | index.js:224 | 0 exactly when the output is empty; otherwise the number of newlines inside the trimmed output plus one |
| GitStatus.StagedCount | index.js:244 | never negative; 0 for empty output; otherwise the number of newlines inside the trimmed output, which drops the summary line |
| GitStatus.BranchProbe | index.js:197-205 | fails exactly when the command failed; otherwise passes on trimmed text |
| GitStatus.RemoteProbe | index.js:207-211 | never fails, even when the command did; a trimmed URL without `@` or a `.git` ending comes through as it is |
| GitStatus.ListingProbe | index.js:219-236 | fails exactly when the command failed; the count is never negative, 0 exactly for empty output, otherwise newlines plus one |
| GitStatus.StagedProbe | index.js:238-246 | fails exactly when the command failed; the count is never negative and leaves out the summary line |
| GitStatus.RevListCountProbe | index.js:248-258 | never fails; output without a digit yields NaN |
| GitStatus.RevListCountReadsCount | index.js:248-258 | a count printed with a trailing newline is read back as that count, whether or not the command reported an error |
| GitStatus.ProbeResults | index.js:287-294 | the eight probes in the order their callbacks are handed out; JoinReadsSnapshot states that reading them back gives Snapshot |
| GitStatus.ReadByPosition | index.js:266-273 | `results[0]` to `results[7]` copied into the record; JoinReadsSnapshot states the result |
| GitStatus.AfterAll | index.js:261-263 | the join succeeds exactly when every result succeeded; its values are the results' values, in the order the callbacks were handed out |
| GitStatus.Snapshot | index.js:266-284 | the record assembled field by field from the probes has non-negative counts |
| GitStatus.EightResultsJoin | index.js:287-294 | eight successful results, whatever their values, join successfully |
| GitStatus.JoinFailureHasCause | index.js:287-294 | when the branch, untracked, dirty and staged probes all succeed the join succeeds, so a failed join means one of them failed |
| GitStatus.ProbeFailureFailsJoin | index.js:287-294 | a failure of any of those four probes fails the join |
| GitStatus.JoinReadsSnapshot | index.js:266-284 | a successful join has a value of the right kind at each of the eight positions, and reading them by position gives the field-by-field record |
| GitStatus.GitCheck | index.js:260-295 | fails exactly when one of the four fallible probes failed; otherwise yields the field-by-field record |
| GitStatus.SetGit | index.js:297-331 | outside a work tree `git` becomes the empty record; after a failed join it keeps its old value; otherwise it becomes the snapshot; non-negative counts are preserved |
| GitStatus.SetGitIsWholeValue | index.js:297-331 | `git` is never a mixture: it is the old record, the empty record or the snapshot |
| GitStatus.SetGitIdempotent | index.js:297-331 | observing the same repository twice gives the same `git` as observing it once |
| GitStatus.OneUntrackedFileSnapshot | index.js:219-226 | a repository with one untracked file, no remote and no upstream shows untracked 1, dirty and staged 0, an empty remote, and NaN for ahead and behind |
| WorkingDir.PathRunEnd | index.js:175 | the greedy `[^\:\[\]\?\"\<\>\|]+` stops at the first excluded character or at the end |
| WorkingDir.FindDrivePath | index.js:175 | finds the leftmost index where a letter, a colon and a path character begin, or reports that there is none |
| WorkingDir.DrivePathSpan | index.js:175-177 | no match exactly when no drive path starts anywhere; otherwise the leftmost start, extended as far as path characters go |
| WorkingDir.DrivePath | index.js:175-179 | no match exactly when no drive path starts anywhere; a match is a letter, a colon and one or more path characters |
| WorkingDir.DrivePathAtFront | index.js:175-179 | a drive path at the front of the data is taken whole, up to the first excluded character |
| WorkingDir.SetCwd | index.js:173-189 | `pid` is never touched. On Windows, missing or empty data, or no match, changes nothing; otherwise `cwd` becomes the match and `git` is refreshed there. Elsewhere `cwd` becomes the trimmed `lsof` output, even after an error, and `git` is refreshed there |
| Middleware.EnterKey | index.js:426 | `data.indexOf('\n') > 0`; EnterKeyMeaning states what it means |
| Middleware.EnterKeyMeaning | index.js:426 | the enter-key test holds exactly when the chunk contains a newline and does not start with one |
| Middleware.Route | index.js:411-440 | throws exactly on a title or activation event for an unknown session, or on a data event without data. Otherwise the action is passed on unchanged, and a refresh always uses the new `pid`. An add event sets `pid` to the action's pid and refreshes with it; title and activation events set `pid` from the session table, and only activation refreshes; a data event keeps `pid` and refreshes, with its chunk, exactly when the enter key was pressed. Other action types change nothing |
| Middleware.RouteRefreshes | index.js:418-435 | the directory is resolved again exactly on an add event, an activation, or a data event with the enter key |
| Middleware.Step | index.js:411-440 | nothing is passed on exactly when the middleware throws, and then the state is unchanged; otherwise exactly the action is passed on, `pid` takes the switch's new value, and the state is that with `setCwd` applied when the switch asked for it; unhandled action types leave the state alone |
| Middleware.AddResolvesDirectory | index.js:418-421 | outside Windows, adding a session sets `pid` to the action's pid and `cwd` to its trimmed `lsof` directory, refreshes `git` there, and passes the action on |
| Middleware.WindowsSwitchOnlyMovesPid | index.js:418-435 | on Windows, adding or activating a session only moves `pid`, because `setCwd` without a chunk does nothing there |
| Middleware.WindowsEnterKeyMovesDirectory | index.js:424-429 | on Windows, an enter-key chunk holding a drive path sets `cwd` to the leftmost drive path in it and refreshes `git` there, keeping `pid` |
| Middleware.TitleChangeKeepsDirectory | index.js:415-417 | a title change sets `pid` from the session table and changes nothing else |
| Middleware.ActivationResolvesDirectory | index.js:432-435 | outside Windows, activating a session sets `pid` to its pid and `cwd` to its trimmed `lsof` directory, and refreshes `git` there, whatever the state before |
| Middleware.Run | index.js:411-440 | the middleware called once per action, in order; RunSnoc, QuietTraceKeepsDirectory and LatestActivationWins state what runs do |
| Middleware.RunSnoc | index.js:411-440 | running a trace and then one more action is one more step |
| Middleware.QuietTraceKeepsDirectory | index.js:415-417 | a trace of title changes and unhandled actions never changes `cwd` or `git` |
| Middleware.LatestActivationWins | index.js:432-435 | outside Windows, after any trace that ends with an activation, `cwd` is the activated session's directory |
| Middleware.StepKeepsWellFormed | index.js:297-331 | one middleware call never makes the untracked, dirty or staged count of `git` negative |
| Middleware.RunKeepsWellFormed | index.js:297-331 | no trace of actions makes the untracked, dirty or staged count of `git` negative, given it starts non-negative |
| Middleware.RunFromInitialStateWellFormed | index.js:160-171 | from the state the plugin loads with, where every count is 0, no trace of actions makes a count negative |

## Left out

- `decorateConfig` and `decorateHyper`: they are presentation. The status bar's markup, styles, icons, click handlers and the 100 ms polling interval are not modelled.
- Commands and the file system: `exec`, `lsof`, the `git` commands and `fs.exists` are parameters. The model takes their outputs as given and does not model how the tools produce them.
- Interleaving: `setCwd` and `setGit` run asynchronously, so a slow, stale pass can overwrite a newer result. Each middleware call, together with the `lsof` and `git` callbacks it triggers, is modelled as completing in one step, before the next action arrives.
- `after-all-results` is not part of this model beyond what `gitCheck` relies on: results in order, and failure when any result is an error. Which error it reports does not matter, because `setGit` throws whatever it gets.
- The throw in `setGit`: it escapes the callback and ends that refresh. It is modelled as "`git` keeps its previous value". Process-level effects of the uncaught exception are not modelled.
- JsString.ParseInt: numbers are unbounded integers. The loss of precision past 2^53 and the distinction of `-0` are not modelled.
- Middleware.Route: a session entry that exists but has no `pid` would set `pid` to `undefined`. The session table is modelled as a map from uid straight to pid, so this case is not represented.
- Middleware.Route: JavaScript converts a missing `uid` to the property key "undefined". Uids are modelled as strings, so a missing uid is simply a key that is not in the table.
- Middleware.Route: the session table is a JavaScript object, so a uid naming an inherited property (`constructor`, `toString`, `__proto__`, `hasOwnProperty`) finds a value without a `pid`. The code then sets `pid` to `undefined`, calls `setCwd(undefined)` and forwards the action without throwing. The model treats such a uid as an unknown session, which throws.
- Middleware.Run: one session table and one `World` serve the whole trace. Within a trace no process changes directory and `SESSION_ADD` does not add its session to the table. The lemmas about runs do not depend on either.
- Middleware.Route: `data` is assumed to be a string or absent. A non-string `data` without `indexOf` would throw like a missing one.
- `process.platform` is a boolean parameter: Windows or not.
- GitStatus.RemoteProbe: its contract covers URLs without `@` and `.git`. The general shape of the normaliser's output is stated by the RemoteUrl lemmas instead.
- GitStatus.RevListCountProbe: its contract states only the NaN case. Reading back a printed count is stated by GitStatus.RevListCountReadsCount.

=== FILE: git_status.dfy ===
/** The repository detector, the eight status probes, the join of their
    results and the transition of the module-level `git` record
    (index.js lines 162-171 and 191-331). Every command is replaced by what
    it reported: an `ExecOutput` per `exec` call and a boolean for the
    `fs.exists` check of `.git/MERGE_HEAD`. */
module GitStatus {
  import opened Maybe
  import opened JsString
  import RemoteUrl

  /** What `exec` passes its callback: whether the command failed (it could
      not start or exited non-zero) and what it wrote to standard output. */
  datatype ExecOutput = ExecOutput(failed: bool, stdout: string)

  /** Everything the tools report when run in one directory. */
  datatype RepoObservation = RepoObservation(
    insideWorkTree: ExecOutput,  // git rev-parse --is-inside-work-tree
    branch: ExecOutput,          // git symbolic-ref --short HEAD || git rev-parse --short HEAD
    remote: ExecOutput,          // git ls-remote --get-url
    mergeHeadExists: bool,       // fs.exists(`${repo}/.git/MERGE_HEAD`)
    untracked: ExecOutput,       // git ls-files --other --exclude-standard
    dirty: ExecOutput,           // git status --porcelain --ignore-submodules -uno
    staged: ExecOutput,          // git diff --cached --stat=1,1,0
    ahead: ExecOutput,           // git rev-list --left-only --count HEAD...@{u}
    behind: ExecOutput           // git rev-list --left-only --count @{u}...HEAD
  )

  /** The `git` record the status line shows. `ahead` and `behind` hold
      what `parseInt` returned, `None` standing for NaN. */
  datatype Status = Status(
    branch: string,
    remote: string,
    merging: bool,
    untracked: int,
    dirty: int,
    staged: int,
    ahead: Option<int>,
    behind: Option<int>
  )

  /** The record `git` starts as, and is reset to outside a repository. */
  const EmptyStatus: Status := Status("", "", false, 0, 0, 0, Some(0), Some(0))

  /** The three counts are never negative. */
  predicate WellFormed(st: Status) {
    st.untracked >= 0 && st.dirty >= 0 && st.staged >= 0
  }

  /** A value a probe hands to the join; its position in the join says
      which field it fills. */
  datatype ProbeValue =
    | Text(text: string)
    | Flag(flag: bool)
    | Count(count: int)
    | Number(number: Option<int>)

  // ---------------------------------------------------------------------
  // The detector

  /** `isGit`: the directory is a work tree exactly when the command ran
      and succeeded; a tool that cannot run says "no". */
  function IsGit(out: ExecOutput): bool {
    !out.failed
  }

  // ---------------------------------------------------------------------
  // Interpreting the probes' output

  /** `!stdout ? 0 : stdout.trim().split('\n').length`: the number of
      lines of a listing. */
  function LineCount(stdout: string): (n: nat)
    ensures n == 0 <==> |stdout| == 0
    ensures |stdout| > 0 ==> n == multiset(Trim(stdout))['\n'] + 1
  {
    if |stdout| == 0 then 0
    else
      SplitLength(Trim(stdout), '\n');
      |Split(Trim(stdout), '\n')|
  }

  /** The staged count: the line count of `git diff --cached --stat`
      without its summary line. */
  function StagedCount(stdout: string): (n: int)
    ensures n >= 0
    ensures |stdout| == 0 ==> n == 0
    ensures |stdout| > 0 ==> n == multiset(Trim(stdout))['\n']
  {
    if |stdout| == 0 then 0 else LineCount(stdout) - 1
  }

  /** `gitBranch`: the trimmed name, or the command's error. */
  function BranchProbe(out: ExecOutput): (r: Result<ProbeValue>)
    ensures r.Failed? <==> out.failed
    ensures r.Ok? ==> r.value.Text? && IsTrimmed(r.value.text)
  {
    if out.failed then Failed else Ok(Text(Trim(out.stdout)))
  }

  /** `gitRemote`: the normalised URL; the command's error is ignored, so
      a repository without a remote reports the empty string. */
  function RemoteProbe(out: ExecOutput): (r: Result<ProbeValue>)
    ensures r.Ok? && r.value.Text?
    ensures var url := Trim(out.stdout);
      '@' !in url && !RemoteUrl.EndsWithGit(url) ==> r.value.text == url
  {
    var url := Trim(out.stdout);
    assert '@' !in url && !RemoteUrl.EndsWithGit(url) ==> RemoteUrl.NormalizeRemote(url) == url by {
      if '@' !in url && !RemoteUrl.EndsWithGit(url) {
        RemoteUrl.NormalizeIdentity(url);
      }
    }
    Ok(Text(RemoteUrl.NormalizeRemote(url)))
  }

  /** `gitMerging`: whether `.git/MERGE_HEAD` exists; never an error. */
  function MergingProbe(mergeHeadExists: bool): Result<ProbeValue> {
    Ok(Flag(mergeHeadExists))
  }

  /** `gitUntracked` and `gitDirty`: the number of lines of the listing,
      or the command's error. */
  function ListingProbe(out: ExecOutput): (r: Result<ProbeValue>)
    ensures r.Failed? <==> out.failed
    ensures r.Ok? ==> r.value.Count? && r.value.count >= 0
    ensures r.Ok? ==> (r.value.count == 0 <==> |out.stdout| == 0)
    ensures r.Ok? && |out.stdout| > 0 ==> r.value.count == multiset(Trim(out.stdout))['\n'] + 1
  {
    if out.failed then Failed else Ok(Count(LineCount(out.stdout)))
  }

  /** `gitStaged`: the line count less the summary line, or the command's
      error. */
  function StagedProbe(out: ExecOutput): (r: Result<ProbeValue>)
    ensures r.Failed? <==> out.failed
    ensures r.Ok? ==> r.value.Count? && r.value.count >= 0
    ensures r.Ok? && |out.stdout| == 0 ==> r.value.count == 0
    ensures r.Ok? && |out.stdout| > 0 ==> r.value.count == multiset(Trim(out.stdout))['\n']
  {
    if out.failed then Failed else Ok(Count(StagedCount(out.stdout)))
  }

  /** `gitAhead` and `gitBehind`: `parseInt(stdout, 10)` whatever the
      command reported, so a branch without upstream yields NaN. */
  function RevListCountProbe(out: ExecOutput): (r: Result<ProbeValue>)
    ensures r.Ok? && r.value.Number?
    ensures (forall k :: 0 <= k < |out.stdout| ==> !IsDigit(out.stdout[k])) ==> r.value.number == None
  {
    Ok(Number(ParseInt(out.stdout)))
  }

  /** `git rev-list --count` prints the count and a newline; the probe
      reads the count back. */
  lemma RevListCountReadsCount(n: nat, failed: bool)
    ensures RevListCountProbe(ExecOutput(failed, DecimalString(n) + "\n")) == Ok(Number(Some(n)))
  {
    ParseIntReadsCount(n, "\n");
  }

  // ---------------------------------------------------------------------
  // The join

  /** `after-all-results`: the results in the order the callbacks were
      handed out, or an error as soon as one of them is an error. */
  function AfterAll<T>(rs: seq<Result<T>>): (r: Result<seq<T>>)
    ensures r.Ok? <==> forall i :: 0 <= i < |rs| ==> rs[i].Ok?
    ensures r.Ok? ==> |r.value| == |rs|
    ensures r.Ok? ==> forall i :: 0 <= i < |rs| ==> rs[i] == Ok(r.value[i])
  {
    if |rs| == 0 then Ok([])
    else
      match rs[0]
      case Failed => Failed
      case Ok(v) =>
        match AfterAll(rs[1..])
        case Failed => Failed
        case Ok(vs) =>
          assert forall i :: 1 <= i < |rs| ==> rs[i] == rs[1..][i - 1];
          Ok([v] + vs)
  }

  /** Some probe whose error reaches the join failed. Only these four can
      fail: the remote, merge and ahead/behind probes never pass an error. */
  predicate AnyProbeFails(obs: RepoObservation) {
    obs.branch.failed || obs.untracked.failed || obs.dirty.failed || obs.staged.failed
  }

  /** The record the eight probes describe, field by field. */
  function Snapshot(obs: RepoObservation): (st: Status)
    ensures WellFormed(st)
  {
    Status(
      Trim(obs.branch.stdout),
      RemoteUrl.NormalizeRemote(Trim(obs.remote.stdout)),
      obs.mergeHeadExists,
      LineCount(obs.untracked.stdout),
      LineCount(obs.dirty.stdout),
      StagedCount(obs.staged.stdout),
      ParseInt(obs.ahead.stdout),
      ParseInt(obs.behind.stdout))
  }

  /** The eight results in the order `gitCheck` hands out the join's
      callbacks. */
  function ProbeResults(obs: RepoObservation): seq<Result<ProbeValue>> {
    [ BranchProbe(obs.branch),
      RemoteProbe(obs.remote),
      MergingProbe(obs.mergeHeadExists),
      ListingProbe(obs.untracked),
      ListingProbe(obs.dirty),
      StagedProbe(obs.staged),
      RevListCountProbe(obs.ahead),
      RevListCountProbe(obs.behind) ]
  }

  /** The joined values have the shape `gitCheck` reads them as. */
  predicate ReadableByPosition(vs: seq<ProbeValue>) {
    && |vs| == 8
    && vs[0].Text? && vs[1].Text? && vs[2].Flag?
    && vs[3].Count? && vs[4].Count? && vs[5].Count?
    && vs[6].Number? && vs[7].Number?
  }

  /** `results[0]` to `results[7]`, copied into the record's fields. */
  function ReadByPosition(vs: seq<ProbeValue>): Status
    requires ReadableByPosition(vs)
  {
    Status(vs[0].text, vs[1].text, vs[2].flag, vs[3].count, vs[4].count,
           vs[5].count, vs[6].number, vs[7].number)
  }

  /** Eight successful results join successfully. */
  lemma EightResultsJoin<T>(r0: Result<T>, r1: Result<T>, r2: Result<T>, r3: Result<T>,
                            r4: Result<T>, r5: Result<T>, r6: Result<T>, r7: Result<T>)
    requires r0.Ok? && r1.Ok? && r2.Ok? && r3.Ok? && r4.Ok? && r5.Ok? && r6.Ok? && r7.Ok?
    ensures AfterAll([r0, r1, r2, r3, r4, r5, r6, r7]).Ok?
  {
    var rs := [r0, r1, r2, r3, r4, r5, r6, r7];
    assert forall i :: 0 <= i < |rs| ==> rs[i].Ok?;
  }

  /** When none of the four fallible probes failed, every result is a
      value and the join succeeds: a failed join traces back to one of
      them. */
  lemma JoinFailureHasCause(obs: RepoObservation)
    ensures !AnyProbeFails(obs) ==> AfterAll(ProbeResults(obs)).Ok?
  {
    if !AnyProbeFails(obs) {
      EightResultsJoin(
        BranchProbe(obs.branch), RemoteProbe(obs.remote), MergingProbe(obs.mergeHeadExists),
        ListingProbe(obs.untracked), ListingProbe(obs.dirty), StagedProbe(obs.staged),
        RevListCountProbe(obs.ahead), RevListCountProbe(obs.behind));
    }
  }

  /** A failure of any of the four fallible probes fails the join. */
  lemma ProbeFailureFailsJoin(obs: RepoObservation)
    ensures AnyProbeFails(obs) ==> AfterAll(ProbeResults(obs)).Failed?
  {
    var results := ProbeResults(obs);
    assert AnyProbeFails(obs) ==>
      results[0].Failed? || results[3].Failed? || results[4].Failed? || results[5].Failed?;
  }

  /** A successful join, read by position, is the field-by-field
      snapshot. */
  lemma JoinReadsSnapshot(obs: RepoObservation)
    ensures var j := AfterAll(ProbeResults(obs));
      j.Ok? ==> ReadableByPosition(j.value) && ReadByPosition(j.value) == Snapshot(obs)
  {
    var results := ProbeResults(obs);
    var j := AfterAll(results);
    if j.Ok? {
      var vs := j.value;
      assert results[0] == Ok(vs[0]) && results[1] == Ok(vs[1]) && results[2] == Ok(vs[2]);
      assert results[3] == Ok(vs[3]) && results[4] == Ok(vs[4]) && results[5] == Ok(vs[5]);
      assert results[6] == Ok(vs[6]) && results[7] == Ok(vs[7]);
    }
  }

  /** `gitCheck`: the eight probes' results, joined and read back by
      position into one record. The join fails exactly when one of the
      four fallible probes failed; otherwise every field comes from its own
      probe. */
  function GitCheck(obs: RepoObservation): (r: Result<Status>)
    ensures r.Failed? <==> AnyProbeFails(obs)
    ensures r.Ok? ==> r.value == Snapshot(obs)
  {
    match AfterAll(ProbeResults(obs))
    case Failed =>
      JoinFailureHasCause(obs);
      Failed
    case Ok(vs) =>
      ProbeFailureFailsJoin(obs);
      JoinReadsSnapshot(obs);
      Ok(ReadByPosition(vs))
  }

  // ---------------------------------------------------------------------
  // The transition of `git`

  /** `setGit`: outside a work tree `git` becomes the empty record; inside
      it is replaced as a whole by the joined snapshot; when the join fails
      the callback throws before assigning, so `git` keeps its value. */
  function SetGit(git: Status, obs: RepoObservation): (r: Status)
    ensures !IsGit(obs.insideWorkTree) ==> r == EmptyStatus
    ensures IsGit(obs.insideWorkTree) && AnyProbeFails(obs) ==> r == git
    ensures IsGit(obs.insideWorkTree) && !AnyProbeFails(obs) ==> r == Snapshot(obs)
    ensures WellFormed(git) ==> WellFormed(r)
  {
    if !IsGit(obs.insideWorkTree) then EmptyStatus
    else
      match GitCheck(obs)
      case Failed => git
      case Ok(snapshot) => snapshot
  }

  /** `git` is never torn: after `setGit` it is the old record, the empty
      record, or the complete snapshot of this one observation. */
  lemma SetGitIsWholeValue(git: Status, obs: RepoObservation)
    ensures var r := SetGit(git, obs);
      r == git || r == EmptyStatus || r == Snapshot(obs)
  {
  }

  /** Observing the same directory again changes nothing more. */
  lemma SetGitIdempotent(git: Status, obs: RepoObservation)
    ensures SetGit(SetGit(git, obs), obs) == SetGit(git, obs)
  {
  }

  /** A repository with one untracked file, nothing dirty or staged, no
      remote and no upstream: the untracked count is 1, the other counts
      0, the remote empty, and ahead/behind are NaN because `rev-list`
      printed nothing. */
  lemma OneUntrackedFileSnapshot(git: Status, obs: RepoObservation, file: string)
    requires IsGit(obs.insideWorkTree) && !AnyProbeFails(obs)
    requires |file| > 0 && IsTrimmed(file) && '\n' !in file
    requires obs.untracked.stdout == file + "\n"
    requires obs.dirty.stdout == [] && obs.staged.stdout == []
    requires obs.remote.stdout == [] && obs.ahead.stdout == [] && obs.behind.stdout == []
    ensures SetGit(git, obs)
         == Status(Trim(obs.branch.stdout), [], obs.mergeHeadExists, 1, 0, 0, None, None)
  {
    var out := obs.untracked.stdout;
    assert out[|file|] == '\n';
    TrimUnique(out, 0, |file|);
    assert out[0..|file|] == file;
    assert multiset(file)['\n'] == 0;
    RemoteUrl.NormalizeIdentity([]);
  }
}

=== FILE: js_string.dfy ===
/** The ECMAScript string primitives the status line applies to command
    output: `String.prototype.trim`, `split` on a one-character separator,
    `indexOf` of one character, and `parseInt(s, 10)`. */
module JsString {
  import opened Maybe

  /** LineTerminator: LF, CR, LINE SEPARATOR and PARAGRAPH SEPARATOR. */
  predicate IsLineTerminator(c: char) {
    c == '\n' || c == '\r' || c == '\U{2028}' || c == '\U{2029}'
  }

  /** WhiteSpace: TAB, VT, FF, SPACE, NBSP, ZWNBSP and the other members of
      the Unicode Zs category. */
  predicate IsWhiteSpace(c: char) {
    || c == '\t' || c == '\U{000B}' || c == '\U{000C}' || c == ' '
    || c == '\U{00A0}' || c == '\U{FEFF}' || c == '\U{1680}'
    || ('\U{2000}' <= c <= '\U{200A}')
    || c == '\U{202F}' || c == '\U{205F}' || c == '\U{3000}'
  }

  /** The characters `trim` removes and `parseInt` skips. */
  predicate IsTrimmable(c: char) {
    IsWhiteSpace(c) || IsLineTerminator(c)
  }

  /** Neither end of `s` is a trimmable character. */
  predicate IsTrimmed(s: string) {
    |s| == 0 || (!IsTrimmable(s[0]) && !IsTrimmable(s[|s| - 1]))
  }

  /** The first index at or after `i` whose character is not trimmable,
      or `|s|`. */
  function SkipLeading(s: string, i: nat): (k: nat)
    requires i <= |s|
    ensures i <= k <= |s|
    ensures forall j :: i <= j < k ==> IsTrimmable(s[j])
    ensures k == |s| || !IsTrimmable(s[k])
    decreases |s| - i
  {
    if i < |s| && IsTrimmable(s[i]) then SkipLeading(s, i + 1) else i
  }

  /** The index just past the last character of `s[..j]` that is not
      trimmable, or 0. */
  function SkipTrailing(s: string, j: nat): (k: nat)
    requires j <= |s|
    ensures k <= j
    ensures forall t :: k <= t < j ==> IsTrimmable(s[t])
    ensures k == 0 || !IsTrimmable(s[k - 1])
  {
    if j > 0 && IsTrimmable(s[j - 1]) then SkipTrailing(s, j - 1) else j
  }

  /** `s` with its leading trimmable characters removed. */
  function TrimStart(s: string): string {
    s[SkipLeading(s, 0)..]
  }

  /** `s.trim()`: the slice of `s` left after removing the trimmable
      characters at both ends. */
  function Trim(s: string): (r: string)
    ensures IsTrimmed(r)
    ensures var lead := SkipLeading(s, 0);
      && lead + |r| <= |s|
      && r == s[lead..lead + |r|]
      && (forall j :: lead + |r| <= j < |s| ==> IsTrimmable(s[j]))
  {
    var t := TrimStart(s);
    var r := t[..SkipTrailing(t, |t|)];
    assert |r| > 0 ==> r[0] == t[0] && r[|r| - 1] == t[|r| - 1];
    r
  }

  /** Leading trimmable characters in front of a start that is not one are
      exactly what `TrimStart` removes. */
  lemma TrimStartSkips(lead: string, rest: string)
    requires forall j :: 0 <= j < |lead| ==> IsTrimmable(lead[j])
    requires |rest| == 0 || !IsTrimmable(rest[0])
    ensures TrimStart(lead + rest) == rest
  {
    var s := lead + rest;
    if |rest| > 0 {
      assert s[|lead|] == rest[0];
    }
    assert SkipLeading(s, 0) == |lead|;
    assert s[|lead|..] == rest;
  }

  /** Any split of `s` into trimmable prefix, trimmed core and trimmable
      suffix has `Trim(s)` as its core: trim is determined by the
      characters alone. */
  lemma TrimUnique(s: string, i: nat, j: nat)
    requires i <= j <= |s|
    requires forall k :: 0 <= k < i ==> IsTrimmable(s[k])
    requires forall k :: j <= k < |s| ==> IsTrimmable(s[k])
    requires IsTrimmed(s[i..j])
    ensures Trim(s) == s[i..j]
  {
    var lead := SkipLeading(s, 0);
    var r := Trim(s);
    if i < j {
      assert !IsTrimmable(s[i]);
      assert lead == i;
      assert !IsTrimmable(s[j - 1]);
      assert |r| == j - i;
    } else {
      assert |r| == 0;
    }
  }

  /** Trimming twice trims nothing more. */
  lemma TrimIdempotent(s: string)
    ensures Trim(Trim(s)) == Trim(s)
  {
    var r := Trim(s);
    TrimUnique(r, 0, |r|);
    assert r[0..|r|] == r;
  }

  /** `s.indexOf(c)`: the first index holding `c`, or -1. */
  function IndexOf(s: string, c: char): (k: int)
    ensures -1 <= k < |s|
    ensures k == -1 <==> c !in s
    ensures 0 <= k ==> s[k] == c && c !in s[..k]
  {
    if |s| == 0 then -1
    else if s[0] == c then 0
    else
      var k := IndexOf(s[1..], c);
      assert k >= 0 ==> s[..k + 1] == [s[0]] + s[1..][..k];
      if k == -1 then -1 else k + 1
  }

  /** The inverse of `split`: the parts with `sep` between neighbours. */
  function JoinWith(parts: seq<string>, sep: char): string
    requires |parts| >= 1
  {
    if |parts| == 1 then parts[0]
    else parts[0] + [sep] + JoinWith(parts[1..], sep)
  }

  /** `s.split(sep)` for a one-character separator: the maximal pieces of
      `s` free of `sep`, so that joining them with `sep` gives back `s`.
      The empty string splits into one empty piece. */
  function Split(s: string, sep: char): (parts: seq<string>)
    ensures |parts| >= 1
    ensures forall k :: 0 <= k < |parts| ==> sep !in parts[k]
    ensures JoinWith(parts, sep) == s
    decreases |s|
  {
    var i := IndexOf(s, sep);
    if i < 0 then [s]
    else
      var head, tail := s[..i], s[i + 1..];
      var rest := Split(tail, sep);
      var parts := [head] + rest;
      assert parts[1..] == rest;
      assert s == head + [sep] + tail;
      assert forall k :: 1 <= k < |parts| ==> parts[k] == rest[k - 1];
      parts
  }

  /** `split` yields one piece more than there are separators in `s`. */
  lemma {:induction false} SplitLength(s: string, sep: char)
    ensures |Split(s, sep)| == multiset(s)[sep] + 1
    decreases |s|
  {
    var i := IndexOf(s, sep);
    if i >= 0 {
      var head, tail := s[..i], s[i + 1..];
      SplitLength(tail, sep);
      assert Split(s, sep) == [head] + Split(tail, sep);
      assert s == head + [sep] + tail;
      assert multiset(s) == multiset(head) + multiset([sep]) + multiset(tail);
      assert sep !in multiset(head);
    } else {
      assert sep !in multiset(s);
    }
  }

  predicate IsDigit(c: char) {
    '0' <= c <= '9'
  }

  predicate AllDigits(d: string) {
    forall k :: 0 <= k < |d| ==> IsDigit(d[k])
  }

  /** The longest prefix of `s` made of decimal digits. */
  function DigitPrefix(s: string): (d: string)
    ensures |d| <= |s| && d == s[..|d|]
    ensures AllDigits(d)
    ensures |d| == |s| || !IsDigit(s[|d|])
  {
    if |s| > 0 && IsDigit(s[0]) then
      var d := [s[0]] + DigitPrefix(s[1..]);
      assert d[1..] == DigitPrefix(s[1..]);
      d
    else []
  }

  function DigitValue(c: char): nat
    requires IsDigit(c)
  {
    (c as int) - ('0' as int)
  }

  /** The decimal value of a digit string, most significant digit first. */
  function DigitsValue(d: string): nat
    requires AllDigits(d)
  {
    if |d| == 0 then 0
    else DigitsValue(d[..|d| - 1]) * 10 + DigitValue(d[|d| - 1])
  }

  /** A magnitude with its sign applied. */
  function SignedValue(negative: bool, v: nat): int {
    var n: int := v;
    if negative then -n else n
  }

  /** `t` starts with a minus sign. */
  predicate HasMinus(t: string) {
    |t| > 0 && t[0] == '-'
  }

  /** `t` without its optional leading sign. */
  function Unsigned(t: string): string {
    if |t| > 0 && (t[0] == '+' || t[0] == '-') then t[1..] else t
  }

  /** The part of `parseInt(s, 10)` after the leading white space: an
      optional sign, then the longest run of decimal digits; no digits is
      NaN (`None`). */
  function ReadSignedDigits(t: string): (r: Option<int>)
    ensures r.None? <==> |DigitPrefix(Unsigned(t))| == 0
    ensures r.Some? ==> exists k :: 0 <= k < |t| && IsDigit(t[k])
    ensures r.Some? ==> r.value == SignedValue(HasMinus(t), DigitsValue(DigitPrefix(Unsigned(t))))
  {
    var u := Unsigned(t);
    var d := DigitPrefix(u);
    if |d| == 0 then None
    else
      assert IsDigit(t[|t| - |u|]);
      Some(SignedValue(HasMinus(t), DigitsValue(d)))
  }

  /** An optional sign: nothing, `+` or `-`. */
  predicate IsSign(sign: string) {
    |sign| <= 1 && (|sign| == 1 ==> sign[0] == '+' || sign[0] == '-')
  }

  /** Dropping the sign of `sign + u` leaves `u` when `u` does not start
      with a sign of its own (or `sign` is one), and the minus is the
      sign's. */
  lemma UnsignedOfParts(sign: string, u: string)
    requires IsSign(sign)
    requires |sign| == 1 || |u| == 0 || (u[0] != '+' && u[0] != '-')
    ensures Unsigned(sign + u) == u
    ensures HasMinus(sign + u) <==> HasMinus(sign) || (|sign| == 0 && HasMinus(u))
  {
    if |sign| == 1 {
      assert (sign + u)[1..] == u;
    } else {
      assert sign + u == u;
    }
  }

  /** A sign (or none), a run of digits and anything that does not
      continue the run: the digits are read, negated after a minus. So
      `+5` is 5, `007` is 7 and `12abc` is 12. */
  lemma ReadSignedDigitsOfParts(sign: string, d: string, rest: string)
    requires IsSign(sign)
    requires |d| > 0 && AllDigits(d)
    requires |rest| == 0 || !IsDigit(rest[0])
    ensures ReadSignedDigits(sign + (d + rest)) == Some(SignedValue(HasMinus(sign), DigitsValue(d)))
  {
    var u := d + rest;
    assert u[0] == d[0];
    UnsignedOfParts(sign, u);
    DigitPrefixStops(d, rest);
    var t := sign + u;
    assert DigitPrefix(Unsigned(t)) == d;
    assert HasMinus(t) == HasMinus(sign);
    var r := ReadSignedDigits(t);
    assert r.Some?;
  }

  /** When no digit follows the optional sign the result is NaN: `a5`,
      `+`, `-x` and the empty text all read as NaN. */
  lemma ReadSignedDigitsWithoutDigit(sign: string, rest: string)
    requires IsSign(sign)
    requires |rest| == 0 || !IsDigit(rest[0])
    requires |sign| == 1 || |rest| == 0 || (rest[0] != '+' && rest[0] != '-')
    ensures ReadSignedDigits(sign + rest) == None
  {
    UnsignedOfParts(sign, rest);
  }

  /** `parseInt(s, 10)`: skip leading white space, then read a signed
      decimal number. */
  function ParseInt(s: string): Option<int> {
    ReadSignedDigits(TrimStart(s))
  }

  function DigitChar(k: nat): (c: char)
    requires k < 10
    ensures IsDigit(c)
  {
    (('0' as int) + k) as char
  }

  /** The shortest decimal spelling of `n`, as `String(n)` writes it. */
  function DecimalString(n: nat): (d: string)
    ensures |d| >= 1 && AllDigits(d)
    ensures |d| > 1 ==> d[0] != '0'
  {
    if n < 10 then [DigitChar(n)]
    else DecimalString(n / 10) + [DigitChar(n % 10)]
  }

  /** Reading back the decimal spelling of `n` gives `n`. */
  lemma {:induction false} DecimalStringValue(n: nat)
    ensures DigitsValue(DecimalString(n)) == n
  {
    if n >= 10 {
      var d := DecimalString(n);
      assert d[..|d| - 1] == DecimalString(n / 10);
      DecimalStringValue(n / 10);
    }
  }

  /** A digit run followed by a non-digit is the digit prefix. */
  lemma {:induction false} DigitPrefixStops(d: string, tail: string)
    requires AllDigits(d)
    requires |tail| == 0 || !IsDigit(tail[0])
    ensures DigitPrefix(d + tail) == d
  {
    if |d| > 0 {
      assert (d + tail)[1..] == d[1..] + tail;
      DigitPrefixStops(d[1..], tail);
    } else {
      assert d + tail == tail;
    }
  }

  /** `String(n)` for an integer: a minus sign before the decimal spelling
      of a negative number. */
  function IntString(n: int): string {
    if n < 0 then "-" + DecimalString(-n) else DecimalString(n)
  }

  /** The sign and digits `String(n)` writes are read back as `n`. */
  lemma ReadSignedDigitsOfIntString(n: int, tail: string)
    requires |tail| == 0 || !IsDigit(tail[0])
    ensures ReadSignedDigits(IntString(n) + tail) == Some(n)
  {
    var m: nat := if n < 0 then -n else n;
    var digits := DecimalString(m);
    var x := IntString(n) + tail;
    DigitPrefixStops(digits, tail);
    DecimalStringValue(m);
    if n < 0 {
      assert x == "-" + (digits + tail);
      assert x[0] == '-' && x[1..] == digits + tail;
    } else {
      assert x == digits + tail;
      assert IsDigit(x[0]);
    }
  }

  /** `parseInt` reads back what `String` wrote, whatever white space is in
      front and whatever non-digit text follows: this is how a count printed
      by a command, with its trailing newline, becomes a number. */
  lemma ParseIntReadsIntString(lead: string, n: int, tail: string)
    requires forall j :: 0 <= j < |lead| ==> IsTrimmable(lead[j])
    requires |tail| == 0 || !IsDigit(tail[0])
    ensures ParseInt(lead + IntString(n) + tail) == Some(n)
  {
    var body := IntString(n) + tail;
    assert lead + IntString(n) + tail == lead + body;
    assert !IsTrimmable(body[0]);
    TrimStartSkips(lead, body);
    ReadSignedDigitsOfIntString(n, tail);
  }

  /** A count as a command prints it, followed by anything but a digit,
      reads back as that count. */
  lemma ParseIntReadsCount(n: nat, tail: string)
    requires |tail| == 0 || !IsDigit(tail[0])
    ensures ParseInt(DecimalString(n) + tail) == Some(n)
  {
    var x := DecimalString(n) + tail;
    var y := IntString(n) + tail;
    assert y == x;
    ReadSignedDigitsOfIntString(n, tail);
    assert ReadSignedDigits(x) == Some(n);
    assert TrimStart(x) == x by {
      assert IsDigit(x[0]);
    }
  }

  /** Text without a single decimal digit, the empty output included, reads
      as NaN. */
  lemma ParseIntWithoutDigits(s: string)
    requires forall k :: 0 <= k < |s| ==> !IsDigit(s[k])
    ensures ParseInt(s) == None
  {
  }
}

=== FILE: maybe.dfy ===
/** Option and Result, the two ways a JavaScript value can be absent or an
    operation can fail in this model. */
module Maybe {

  /** A value that may be missing: `undefined` for a variable never assigned,
      `NaN` for a number `parseInt` could not read. */
  datatype Option<+T> = None | Some(value: T)

  /** What a Node-style callback receives: either `cb(null, value)` or
      `cb(err)`. Which error it was is not modelled. */
  datatype Result<+T> = Ok(value: T) | Failed
}

=== FILE: middleware.dfy ===
/** `exports.middleware` (index.js lines 411-440): the Redux middleware
    that watches session actions, keeps `pid` up to date, asks `setCwd` to
    resolve the directory again, and always passes the action on unless
    reading the action threw first. */
module Middleware {
  import opened Maybe
  import opened JsString
  import opened WorkingDir
  import opened GitStatus

  /** A session's key in the store's session table. */
  type Uid = string

  /** `store.getState().sessions.sessions`, reduced to each session's pid. */
  type Sessions = map<Uid, Pid>

  const SessionSetXtermTitle: string := "SESSION_SET_XTERM_TITLE"
  const SessionAdd: string := "SESSION_ADD"
  const SessionAddData: string := "SESSION_ADD_DATA"
  const SessionSetActive: string := "SESSION_SET_ACTIVE"

  /** An action as the middleware reads it: its `type`, and its `uid`,
      `pid` and `data` fields (`None` where the field is absent). */
  datatype Action = Action(kind: string, uid: Uid, pid: Option<Pid>, data: Option<string>)

  /** What one call of the middleware does before returning. */
  datatype Routed =
    | Forwarded(pid: Option<Pid>, refresh: Option<Refresh>, next: Action)
      // `pid` afterwards, the `setCwd` call made if any, the action given to `next`
    | Threw
      // a TypeError: the session table has no entry for the uid, or the
      // action has no data; `pid` is not assigned and `next` is not called

  /** The action types the switch handles. */
  predicate IsSessionAction(kind: string) {
    kind == SessionSetXtermTitle || kind == SessionAdd || kind == SessionAddData || kind == SessionSetActive
  }

  /** `data.indexOf('\n') > 0`: "the user pressed enter". */
  predicate EnterKey(data: string) {
    IndexOf(data, '\n') > 0
  }

  /** The test counts a newline only when some text stands before the
      first one: a chunk that starts with a newline does not count. */
  lemma EnterKeyMeaning(data: string)
    ensures EnterKey(data) <==> '\n' in data && data[0] != '\n'
  {
  }

  /** The switch of the middleware, with `uids` the session table. */
  function Route(pid: Option<Pid>, sessions: Sessions, a: Action): (r: Routed)
    ensures r.Threw? <==>
      || ((a.kind == SessionSetXtermTitle || a.kind == SessionSetActive) && a.uid !in sessions)
      || (a.kind == SessionAddData && a.data.None?)
    ensures r.Forwarded? ==> r.next == a
    ensures r.Forwarded? && r.refresh.Some? ==> r.refresh.value.pid == r.pid
    ensures r.Forwarded? && r.pid != pid ==>
      a.kind == SessionSetXtermTitle || a.kind == SessionAdd || a.kind == SessionSetActive
    ensures r.Forwarded? && r.refresh.Some? && r.refresh.value.data.Some? ==>
      a.kind == SessionAddData && a.data == r.refresh.value.data && EnterKey(a.data.value)
    ensures !IsSessionAction(a.kind) ==> r == Forwarded(pid, None, a)
    // the value `pid` takes, and the call `setCwd` receives, per event
    ensures a.kind == SessionAdd ==> r == Forwarded(a.pid, Some(Refresh(a.pid, None)), a)
    ensures (a.kind == SessionSetXtermTitle || a.kind == SessionSetActive) && a.uid in sessions ==>
      r.Forwarded? && r.pid == Some(sessions[a.uid])
    ensures a.kind == SessionSetXtermTitle && r.Forwarded? ==> r.refresh.None?
    ensures a.kind == SessionSetActive && r.Forwarded? ==> r.refresh == Some(Refresh(r.pid, None))
    ensures a.kind == SessionAddData && r.Forwarded? ==> r.pid == pid
    ensures a.kind == SessionAddData && a.data.Some? && EnterKey(a.data.value) ==>
      r == Forwarded(pid, Some(Refresh(pid, a.data)), a)
    ensures a.kind == SessionAddData && a.data.Some? && !EnterKey(a.data.value) ==>
      r == Forwarded(pid, None, a)
  {
    if a.kind == SessionSetXtermTitle then
      if a.uid in sessions then Forwarded(Some(sessions[a.uid]), None, a) else Threw
    else if a.kind == SessionAdd then
      Forwarded(a.pid, Some(Refresh(a.pid, None)), a)
    else if a.kind == SessionAddData then
      match a.data
      case None => Threw
      case Some(d) => Forwarded(pid, if EnterKey(d) then Some(Refresh(pid, Some(d))) else None, a)
    else if a.kind == SessionSetActive then
      if a.uid in sessions then
        var p := Some(sessions[a.uid]);
        Forwarded(p, Some(Refresh(p, None)), a)
      else Threw
    else
      Forwarded(pid, None, a)
  }

  /** Which events make the middleware resolve the directory again. */
  lemma RouteRefreshes(pid: Option<Pid>, sessions: Sessions, a: Action)
    requires Route(pid, sessions, a).Forwarded?
    ensures Route(pid, sessions, a).refresh.Some? <==>
      || a.kind == SessionAdd
      || a.kind == SessionSetActive
      || (a.kind == SessionAddData && EnterKey(a.data.value))
  {
  }

  /** The state after one action and what reached `next`. */
  datatype StepResult = StepResult(state: SessionState, forwarded: Option<Action>)

  /** One middleware call, with the `setCwd` it triggers run to completion. */
  function Step(st: SessionState, sessions: Sessions, a: Action, windows: bool, world: World): (r: StepResult)
    ensures r.forwarded.None? <==> Route(st.pid, sessions, a).Threw?
    ensures r.forwarded.None? ==> r.state == st
    ensures r.forwarded.Some? ==> r.forwarded.value == a
    ensures !IsSessionAction(a.kind) ==> r == StepResult(st, Some(a))
    ensures var o := Route(st.pid, sessions, a);
      o.Forwarded? ==> r.state.pid == o.pid
    ensures var o := Route(st.pid, sessions, a);
      o.Forwarded? && o.refresh.None? ==> r.state == st.(pid := o.pid)
    ensures var o := Route(st.pid, sessions, a);
      o.Forwarded? && o.refresh.Some? ==> r.state == SetCwd(st.(pid := o.pid), windows, o.refresh.value, world)
  {
    match Route(st.pid, sessions, a)
    case Threw => StepResult(st, None)
    case Forwarded(pid, refresh, next) =>
      var moved := st.(pid := pid);
      match refresh
      case None => StepResult(moved, Some(next))
      case Some(req) => StepResult(SetCwd(moved, windows, req, world), Some(next))
  }

  /** A title change only moves `pid`: it never resolves the directory, so
      `cwd` and `git` stay as they were. */
  lemma TitleChangeKeepsDirectory(st: SessionState, sessions: Sessions, a: Action, windows: bool, world: World)
    requires a.kind == SessionSetXtermTitle && a.uid in sessions
    ensures var r := Step(st, sessions, a, windows, world);
      r.state == st.(pid := Some(sessions[a.uid])) && r.forwarded == Some(a)
  {
  }

  /** Activating a session, outside Windows, resolves its directory
      through `lsof` and refreshes `git` there, whatever the state was. */
  lemma ActivationResolvesDirectory(st: SessionState, sessions: Sessions, a: Action, world: World)
    requires a.kind == SessionSetActive && a.uid in sessions
    ensures var r := Step(st, sessions, a, false, world);
      var p := Some(sessions[a.uid]);
      var dir := Trim(world.lsof(p).stdout);
      && r.state.pid == p
      && r.state.cwd == Some(dir)
      && r.state.git == GitStatus.SetGit(st.git, world.repo(dir))
  {
  }

  /** Adding a session, outside Windows, makes it current and resolves its
      directory through `lsof`. */
  lemma AddResolvesDirectory(st: SessionState, sessions: Sessions, a: Action, world: World)
    requires a.kind == SessionAdd
    ensures var r := Step(st, sessions, a, false, world);
      var dir := Trim(world.lsof(a.pid).stdout);
      && r.state.pid == a.pid
      && r.state.cwd == Some(dir)
      && r.state.git == GitStatus.SetGit(st.git, world.repo(dir))
      && r.forwarded == Some(a)
  {
  }

  /** On Windows `setCwd` without a chunk does nothing: adding or
      activating a session only moves `pid`. */
  lemma WindowsSwitchOnlyMovesPid(st: SessionState, sessions: Sessions, a: Action, world: World)
    requires a.kind == SessionAdd || (a.kind == SessionSetActive && a.uid in sessions)
    ensures var r := Step(st, sessions, a, true, world);
      r.state == st.(pid := Route(st.pid, sessions, a).pid) && r.forwarded == Some(a)
  {
  }

  /** On Windows the typed chunk is the only source of the directory: an
      enter-key chunk holding a drive path sets `cwd` to that path and
      refreshes `git` there, and `pid` stays. */
  lemma WindowsEnterKeyMovesDirectory(st: SessionState, sessions: Sessions, a: Action, world: World)
    requires a.kind == SessionAddData && a.data.Some? && EnterKey(a.data.value)
    requires DrivePath(a.data.value).Some?
    ensures var r := Step(st, sessions, a, true, world);
      var dir := DrivePath(a.data.value).value;
      && r.state.pid == st.pid
      && r.state.cwd == Some(dir)
      && r.state.git == GitStatus.SetGit(st.git, world.repo(dir))
      && r.forwarded == Some(a)
  {
    var d := a.data.value;
    assert |d| > 0;
    var (i, e) := DrivePathSpan(d).value;
    assert DrivePath(d) == Some(d[i..e]);
  }

  /** The actions in order, each one step. */
  function Run(st: SessionState, sessions: Sessions, actions: seq<Action>, windows: bool, world: World): SessionState
    decreases |actions|
  {
    if |actions| == 0 then st
    else Run(Step(st, sessions, actions[0], windows, world).state, sessions, actions[1..], windows, world)
  }

  /** Running a trace and then one more action is one more step. */
  lemma {:induction false} RunSnoc(st: SessionState, sessions: Sessions, actions: seq<Action>, a: Action, windows: bool, world: World)
    ensures Run(st, sessions, actions + [a], windows, world)
         == Step(Run(st, sessions, actions, windows, world), sessions, a, windows, world).state
    decreases |actions|
  {
    if |actions| > 0 {
      assert (actions + [a])[1..] == actions[1..] + [a];
      RunSnoc(Step(st, sessions, actions[0], windows, world).state, sessions, actions[1..], a, windows, world);
    } else {
      assert [] + [a] == [a];
    }
  }

  /** Actions that can never resolve the directory: title changes, and
      types the switch does not handle. */
  predicate NeverResolves(a: Action) {
    a.kind == SessionSetXtermTitle || !IsSessionAction(a.kind)
  }

  /** A trace of such actions leaves `cwd` and `git` untouched. */
  lemma {:induction false} QuietTraceKeepsDirectory(st: SessionState, sessions: Sessions, actions: seq<Action>, windows: bool, world: World)
    requires forall i :: 0 <= i < |actions| ==> NeverResolves(actions[i])
    ensures var r := Run(st, sessions, actions, windows, world);
      r.cwd == st.cwd && r.git == st.git
    decreases |actions|
  {
    if |actions| > 0 {
      var next := Step(st, sessions, actions[0], windows, world).state;
      assert next.cwd == st.cwd && next.git == st.git;
      QuietTraceKeepsDirectory(next, sessions, actions[1..], windows, world);
    }
  }

  /** In a sequential run the latest activation wins: after any trace
      that ends by activating a session, outside Windows, `cwd` is that
      session's directory. */
  lemma LatestActivationWins(st: SessionState, sessions: Sessions, actions: seq<Action>, a: Action, world: World)
    requires a.kind == SessionSetActive && a.uid in sessions
    ensures Run(st, sessions, actions + [a], false, world).cwd
         == Some(Trim(world.lsof(Some(sessions[a.uid])).stdout))
  {
    RunSnoc(st, sessions, actions, a, false, world);
    ActivationResolvesDirectory(Run(st, sessions, actions, false, world), sessions, a, world);
  }

  /** One middleware call keeps the three counts of `git` non-negative. */
  lemma StepKeepsWellFormed(st: SessionState, sessions: Sessions, a: Action, windows: bool, world: World)
    requires WellFormed(st.git)
    ensures WellFormed(Step(st, sessions, a, windows, world).state.git)
  {
  }

  /** Any trace keeps the three counts of `git` non-negative. */
  lemma {:induction false} RunKeepsWellFormed(st: SessionState, sessions: Sessions, actions: seq<Action>, windows: bool, world: World)
    requires WellFormed(st.git)
    ensures WellFormed(Run(st, sessions, actions, windows, world).git)
    decreases |actions|
  {
    if |actions| > 0 {
      StepKeepsWellFormed(st, sessions, actions[0], windows, world);
      RunKeepsWellFormed(Step(st, sessions, actions[0], windows, world).state, sessions, actions[1..], windows, world);
    }
  }

  /** From the state the plugin loads with, no trace ever shows a negative
      count of untracked, dirty or staged files. */
  lemma RunFromInitialStateWellFormed(sessions: Sessions, actions: seq<Action>, windows: bool, world: World)
    ensures WellFormed(Run(InitialState, sessions, actions, windows, world).git)
  {
    RunKeepsWellFormed(InitialState, sessions, actions, windows, world);
  }
}

=== FILE: remote_url.dfy ===
/** The remote-URL normaliser of the status line: three single-occurrence
    regular-expression replacements applied in order to the trimmed output
    of `git ls-remote --get-url` (index.js line 209):
      1. `/^git@(.*?):/`    becomes `https://$1/`
      2. `/[A-z0-9\-]+@/`   becomes the empty string
      3. `/\.git$/`         becomes the empty string
    None of the three expressions has the `g` flag, so each rewrites at
    most its leftmost match. */
module RemoteUrl {
  import opened Maybe
  import opened JsString

  // ---------------------------------------------------------------------
  // Step 1: /^git@(.*?):/ -> 'https://$1/'

  /** `.` without the `s` flag matches anything but a line terminator. */
  predicate RegexDot(c: char) {
    !IsLineTerminator(c)
  }

  predicate HasSshPrefix(s: string) {
    |s| >= 4 && s[..4] == "git@"
  }

  /** `/^git@(.*?):/` can match `s[..j + 1]`: `s` starts with `git@`, the
      group `s[4..j]` holds no line terminator, and `s[j]` is a colon. */
  predicate SshColonAt(s: string, j: int) {
    && HasSshPrefix(s)
    && 4 <= j < |s|
    && s[j] == ':'
    && forall t :: 4 <= t < j ==> RegexDot(s[t])
  }

  /** The lazy group's scan from index `j` onwards. */
  function FindSshColon(s: string, j: nat): (r: Option<nat>)
    requires HasSshPrefix(s) && 4 <= j <= |s|
    requires forall t :: 4 <= t < j ==> RegexDot(s[t]) && s[t] != ':'
    ensures r.Some? ==> SshColonAt(s, r.value)
    ensures r.Some? ==> forall k :: 4 <= k < r.value ==> !SshColonAt(s, k)
    ensures r.None? ==> forall k :: !SshColonAt(s, k)
    decreases |s| - j
  {
    if j == |s| then None
    else if s[j] == ':' then Some(j)
    else if !RegexDot(s[j]) then
      assert forall k :: j < k ==> !SshColonAt(s, k);
      None
    else FindSshColon(s, j + 1)
  }

  /** The end of the lazy group: the smallest `j` the expression can match
      with, or `None` when it does not match at all. */
  function SshColon(s: string): (r: Option<nat>)
    ensures r.Some? ==> SshColonAt(s, r.value)
    ensures r.Some? ==> forall k :: 0 <= k < r.value ==> !SshColonAt(s, k)
    ensures r.None? ==> forall k :: !SshColonAt(s, k)
  {
    if HasSshPrefix(s) then FindSshColon(s, 4) else None
  }

  /** Step 1: an scp-style `git@host:path` becomes `https://host/path`. */
  function RewriteSsh(s: string): (r: string)
    ensures (forall k :: !SshColonAt(s, k)) ==> r == s
  {
    match SshColon(s)
    case None => s
    case Some(j) => "https://" + s[4..j] + "/" + s[j + 1..]
  }

  // ---------------------------------------------------------------------
  // Step 2: /[A-z0-9\-]+@/ -> ''

  /** The class `[A-z0-9\-]`. The range `A-z` runs from U+0041 to U+007A,
      so besides the letters it holds `[`, `\`, `]`, `^`, `_` and the
      backtick; `@` (U+0040) is just below it. */
  predicate UserChar(c: char) {
    ('A' <= c <= 'z') || ('0' <= c <= '9') || c == '-'
  }

  /** `/[A-z0-9\-]+@/` matches `s[i..k + 1]`. */
  predicate UserInfoAt(s: string, i: int, k: int) {
    && 0 <= i < k < |s|
    && s[k] == '@'
    && forall t :: i <= t < k ==> UserChar(s[t])
  }

  /** The end of the run of class characters starting at `i`. */
  function UserRunEnd(s: string, i: nat): (e: nat)
    requires i <= |s|
    ensures i <= e <= |s|
    ensures forall t :: i <= t < e ==> UserChar(s[t])
    ensures e == |s| || !UserChar(s[e])
    decreases |s| - i
  {
    if i < |s| && UserChar(s[i]) then UserRunEnd(s, i + 1) else i
  }

  /** At a given start the greedy `+` has only one way to reach an `@`:
      the first character after the run. */
  lemma UserInfoAtRunEnd(s: string, i: nat, k: int)
    requires i <= |s|
    requires UserInfoAt(s, i, k)
    ensures k == UserRunEnd(s, i)
  {
    assert !UserChar('@');
  }

  /** The leftmost match of `/[A-z0-9\-]+@/` starting at `from` or later,
      as the start of the run and the index of its `@`. */
  function FindUserInfo(s: string, from: nat): (r: Option<(nat, nat)>)
    requires from <= |s|
    ensures r.Some? ==> from <= r.value.0 && UserInfoAt(s, r.value.0, r.value.1)
    ensures r.Some? ==> forall i, k :: from <= i < r.value.0 ==> !UserInfoAt(s, i, k)
    ensures r.None? ==> forall i, k :: from <= i ==> !UserInfoAt(s, i, k)
    decreases |s| - from
  {
    if from == |s| then None
    else
      var e := UserRunEnd(s, from);
      if from < e < |s| && s[e] == '@' then Some((from, e))
      else
        assert forall k :: !UserInfoAt(s, from, k) by {
          forall k | UserInfoAt(s, from, k) ensures false {
            UserInfoAtRunEnd(s, from, k);
          }
        }
        FindUserInfo(s, from + 1)
  }

  /** Step 2: the leftmost user-info run and its `@` are cut out. */
  function StripUserInfo(s: string): (r: string)
    ensures r == s <==> forall i, k :: !UserInfoAt(s, i, k)
    ensures '@' !in s ==> r == s
  {
    match FindUserInfo(s, 0)
    case None => s
    case Some((i, k)) => s[..i] + s[k + 1..]
  }

  /** Whatever the leftmost match is, exactly it is cut out: the run of
      class characters and its `@`, nothing before or after. */
  lemma StripUserInfoLeftmost(s: string, i: nat, k: nat)
    requires UserInfoAt(s, i, k)
    requires forall i', k' :: 0 <= i' < i ==> !UserInfoAt(s, i', k')
    ensures StripUserInfo(s) == s[..i] + s[k + 1..]
  {
    var m := FindUserInfo(s, 0);
    assert m.Some?;
    var (i0, k0) := m.value;
    assert i0 == i;
    UserInfoAtRunEnd(s, i, k);
    UserInfoAtRunEnd(s, i, k0);
  }

  // ---------------------------------------------------------------------
  // Step 3: /\.git$/ -> ''

  predicate EndsWithGit(s: string) {
    |s| >= 4 && s[|s| - 4..] == ".git"
  }

  /** Step 3: one trailing `.git` is dropped (`$` without the `m` flag
      matches only at the very end). */
  function StripGitSuffix(s: string): (r: string)
    ensures EndsWithGit(s) ==> r + ".git" == s
    ensures !EndsWithGit(s) ==> r == s
  {
    if EndsWithGit(s) then s[..|s| - 4] else s
  }

  /** The whole normaliser, applied to the already trimmed URL. */
  function NormalizeRemote(url: string): string {
    StripGitSuffix(StripUserInfo(RewriteSsh(url)))
  }

  // ---------------------------------------------------------------------
  // Properties

  /** A URL with no `@` that does not end in `.git` comes through
      unchanged. */
  lemma NormalizeIdentity(url: string)
    requires '@' !in url
    requires !EndsWithGit(url)
    ensures NormalizeRemote(url) == url
  {
    assert |url| >= 4 ==> url[..4][3] == url[3];
  }

  /** Dropping `.git` behind a `/` leaves the part in front alone. */
  lemma StripGitSuffixAfterSlash(front: string, p: string)
    requires |front| > 0 && front[|front| - 1] == '/'
    ensures StripGitSuffix(front + p) == front + StripGitSuffix(p)
  {
    var s := front + p;
    if |p| >= 4 {
      assert s[|s| - 4..] == p[|p| - 4..];
      if EndsWithGit(p) {
        assert s[..|s| - 4] == front + p[..|p| - 4];
      }
    } else {
      if |s| >= 4 {
        assert s[|s| - 4..][3 - |p|] == '/';
      }
    }
  }

  /** Step 1 on `git@host:path`, for a host free of colons and line
      breaks, gives `https://host/path`. */
  lemma RewriteScpUrl(host: string, path: string)
    requires ':' !in host
    requires forall t :: 0 <= t < |host| ==> RegexDot(host[t])
    ensures RewriteSsh("git@" + host + ":" + path) == "https://" + host + "/" + path
  {
    var s := "git@" + host + ":" + path;
    var j := 4 + |host|;
    assert s[..4] == "git@";
    assert s[4..j] == host;
    assert s[j + 1..] == path;
    assert forall t :: 4 <= t < j ==> s[t] == host[t - 4];
    assert SshColonAt(s, j);
  }

  /** `git@host:path` becomes `https://host/path` without one trailing
      `.git`, for a host free of colons, `@` and line breaks and a path
      free of `@`. */
  lemma NormalizeScpUrl(host: string, path: string)
    requires ':' !in host && '@' !in host && '@' !in path
    requires forall t :: 0 <= t < |host| ==> RegexDot(host[t])
    ensures NormalizeRemote("git@" + host + ":" + path)
         == "https://" + host + "/" + StripGitSuffix(path)
  {
    var front := "https://" + host + "/";
    RewriteScpUrl(host, path);
    assert "https://" + host + "/" + path == front + path;
    assert '@' !in front + path;
    StripGitSuffixAfterSlash(front, path);
  }

  /** Adding `.git` and taking it off again gives back the path. */
  lemma StripGitSuffixOfGitPath(p: string)
    ensures StripGitSuffix(p + ".git") == p
  {
    assert (p + ".git")[|p|..] == ".git";
    assert (p + ".git")[..|p|] == p;
  }

  /** The documentation example: `git@example.com:org/repo.git`. */
  const ExampleHost: string := "example.com"
  const ExamplePath: string := "org/repo"
  const ExampleScpRemote: string := "git@" + ExampleHost + ":" + ExamplePath + ".git"

  /** The documentation example: the SSH remote becomes
      `https://example.com/org/repo`. */
  lemma NormalizeExampleRemote()
    ensures NormalizeRemote(ExampleScpRemote) == "https://" + ExampleHost + "/" + ExamplePath
  {
    var host, path := ExampleHost, ExamplePath + ".git";
    assert forall t :: 0 <= t < |host| ==> RegexDot(host[t]);
    assert ':' !in host && '@' !in host && '@' !in path;
    NormalizeScpUrl(host, path);
    StripGitSuffixOfGitPath(ExamplePath);
    assert ExampleScpRemote == "git@" + host + ":" + path;
  }

  /** The range `A-z` takes in six punctuation characters besides the
      letters, so `dev_ops@` or ``a`b@`` count as user info, while a dot
      ends the run. */
  lemma UserCharRange()
    ensures forall c :: 'Z' < c < 'a' ==> UserChar(c)
    ensures UserChar('[') && UserChar('\\') && UserChar(']')
    ensures UserChar('^') && UserChar('_') && UserChar('`')
    ensures !UserChar('@') && !UserChar('.') && !UserChar(':') && !UserChar('/')
  {
  }

  /** Text with no `@` at all is left alone by the first two steps. */
  lemma NoAtSignSkipsFirstSteps(s: string)
    requires '@' !in s
    ensures StripUserInfo(RewriteSsh(s)) == s
  {
    assert |s| >= 4 ==> s[..4][3] == s[3];
  }

  /** Exactly one trailing `.git` is removed from a URL without `@`. */
  lemma NormalizeStripsOneGitSuffix(p: string)
    requires '@' !in p
    ensures NormalizeRemote(p + ".git") == p
  {
    assert '@' !in ".git";
    NoAtSignSkipsFirstSteps(p + ".git");
    StripGitSuffixOfGitPath(p);
  }

  /** The normaliser is not idempotent: a second pass over
      `p.git.git` removes the second `.git` the first pass left. */
  lemma NormalizeNotIdempotentOnGitSuffix(p: string)
    requires '@' !in p
    ensures NormalizeRemote(p + ".git.git") == p + ".git"
    ensures NormalizeRemote(NormalizeRemote(p + ".git.git")) == p
  {
    assert p + ".git.git" == (p + ".git") + ".git";
    assert '@' !in p + ".git";
    NormalizeStripsOneGitSuffix(p + ".git");
    NormalizeStripsOneGitSuffix(p);
  }

  /** The run of user characters at the front of `u@rest` ends at its `@`. */
  lemma UserRunEndAtSign(u: string, rest: string)
    requires forall t :: 0 <= t < |u| ==> UserChar(u[t])
    ensures UserRunEnd(u + "@" + rest, 0) == |u|
  {
    var s := u + "@" + rest;
    assert s[|u|] == '@';
    assert forall t :: 0 <= t < |u| ==> s[t] == u[t];
  }

  /** Only a user name of the form `git` makes `u@...` look like an scp
      address to step 1. */
  lemma UserPrefixIsNotScp(u: string, rest: string)
    requires forall t :: 0 <= t < |u| ==> UserChar(u[t])
    requires u != "git"
    ensures !HasSshPrefix(u + "@" + rest)
  {
    var s := u + "@" + rest;
    if |s| >= 4 {
      if |u| >= 4 {
        assert s[..4][3] == u[3];
      } else if |u| == 3 {
        assert s[..4][..3] == u;
      } else {
        assert s[..4][|u|] == '@';
      }
    }
  }

  /** User info in front of the first `@` is removed, once. */
  lemma StripUserInfoLeading(u: string, rest: string)
    requires |u| > 0
    requires forall t :: 0 <= t < |u| ==> UserChar(u[t])
    ensures StripUserInfo(u + "@" + rest) == rest
  {
    var s := u + "@" + rest;
    UserRunEndAtSign(u, rest);
    assert s[|u| + 1..] == rest;
  }

  /** A URL `u@rest` with user info in front loses that user info. */
  lemma NormalizeLeadingUserInfo(u: string, rest: string)
    requires |u| > 0 && u != "git"
    requires forall t :: 0 <= t < |u| ==> UserChar(u[t])
    requires !EndsWithGit(rest)
    ensures NormalizeRemote(u + "@" + rest) == rest
  {
    UserPrefixIsNotScp(u, rest);
    StripUserInfoLeading(u, rest);
  }

  /** A string ending in `@` and then fewer than four characters cannot
      end in `.git`; longer tails decide alone. */
  lemma EndsWithGitAfterAtSign(u: string, rest: string)
    requires !EndsWithGit(rest) && '@' !in rest
    ensures !EndsWithGit(u + "@" + rest)
  {
    var s := u + "@" + rest;
    if |rest| >= 4 {
      assert s[|s| - 4..] == rest[|rest| - 4..];
    } else if |s| >= 4 {
      assert s[|s| - 4..][3 - |rest|] == '@';
    }
  }

  /** With two user-info runs the normaliser removes only the first, so a
      second pass changes the result again. */
  lemma NormalizeStripsOneUserInfo(u1: string, u2: string, rest: string)
    requires |u1| > 0 && u1 != "git"
    requires forall t :: 0 <= t < |u1| ==> UserChar(u1[t])
    requires |u2| > 0 && u2 != "git"
    requires forall t :: 0 <= t < |u2| ==> UserChar(u2[t])
    requires '@' !in rest && !EndsWithGit(rest)
    ensures NormalizeRemote(u1 + "@" + u2 + "@" + rest) == u2 + "@" + rest
    ensures NormalizeRemote(u2 + "@" + rest) == rest
  {
    var inner := u2 + "@" + rest;
    assert u1 + "@" + u2 + "@" + rest == u1 + "@" + inner;
    EndsWithGitAfterAtSign(u2, rest);
    NormalizeLeadingUserInfo(u1, inner);
    NormalizeLeadingUserInfo(u2, rest);
  }
}

=== FILE: working_dir.dfy ===
/** The module-level session state `pid`, `cwd`, `git` (index.js lines
    160-171) and `setCwd` (lines 173-189), which resolves the working
    directory and then refreshes `git` for it. A call to `setCwd`, together
    with the `exec` callbacks it starts, is taken to complete as one step. */
module WorkingDir {
  import opened Maybe
  import opened JsString
  import opened GitStatus

  /** A process id, as the session store holds it. */
  type Pid = int

  /** The three module-level variables. `None` is the `undefined` that
      `pid` and `cwd` hold before their first assignment. */
  datatype SessionState = SessionState(pid: Option<Pid>, cwd: Option<string>, git: Status)

  /** The state when the plugin loads: no `pid`, no `cwd`, and the `git`
      object literal of lines 162-171. */
  const InitialState: SessionState := SessionState(None, None, EmptyStatus)

  /** What the commands would report: the output of the `lsof` pipeline
      for a process id (`undefined` included), and what the git tools
      report in a directory. */
  datatype World = World(lsof: Option<Pid> -> ExecOutput, repo: string -> RepoObservation)

  /** A call `setCwd(pid, action)`; `data` is `action.data`, or `None` when
      no action is passed or it has no data. */
  datatype Refresh = Refresh(pid: Option<Pid>, data: Option<string>)

  // ---------------------------------------------------------------------
  // The Windows branch: /([a-zA-Z]:[^\:\[\]\?\"\<\>\|]+)/mi

  /** `[a-zA-Z]`; the `i` flag adds nothing, since without the `u` flag
      case folding never maps a non-ASCII character onto an ASCII one. */
  predicate IsAsciiLetter(c: char) {
    ('a' <= c <= 'z') || ('A' <= c <= 'Z')
  }

  /** `[^\:\[\]\?\"\<\>\|]`: anything else, line terminators included. */
  predicate PathChar(c: char) {
    c != ':' && c != '[' && c != ']' && c != '?' && c != '"' && c != '<' && c != '>' && c != '|'
  }

  /** The expression can match starting at index `i`: a letter, a colon,
      and at least one path character. */
  predicate DrivePathStartsAt(s: string, i: int) {
    0 <= i && i + 2 < |s| && IsAsciiLetter(s[i]) && s[i + 1] == ':' && PathChar(s[i + 2])
  }

  /** Where the greedy `+` stops: the first index from `j` on that is not a
      path character, or `|s|`. */
  function PathRunEnd(s: string, j: nat): (e: nat)
    requires j <= |s|
    ensures j <= e <= |s|
    ensures forall t :: j <= t < e ==> PathChar(s[t])
    ensures e == |s| || !PathChar(s[e])
    decreases |s| - j
  {
    if j < |s| && PathChar(s[j]) then PathRunEnd(s, j + 1) else j
  }

  /** The leftmost index from `from` on where a match starts. */
  function FindDrivePath(s: string, from: nat): (r: Option<nat>)
    requires from <= |s|
    ensures r.Some? ==> from <= r.value && DrivePathStartsAt(s, r.value)
    ensures r.Some? ==> forall i :: from <= i < r.value ==> !DrivePathStartsAt(s, i)
    ensures r.None? ==> forall i :: from <= i ==> !DrivePathStartsAt(s, i)
    decreases |s| - from
  {
    if from == |s| then None
    else if DrivePathStartsAt(s, from) then Some(from)
    else FindDrivePath(s, from + 1)
  }

  /** The span `[i, e)` of `path[0]`: the leftmost start, extended as far
      as path characters go. */
  function DrivePathSpan(s: string): (r: Option<(nat, nat)>)
    ensures r.None? <==> forall i :: !DrivePathStartsAt(s, i)
    ensures r.Some? ==> var (i, e) := r.value;
      && DrivePathStartsAt(s, i)
      && (forall j :: 0 <= j < i ==> !DrivePathStartsAt(s, j))
      && i + 3 <= e <= |s|
      && (forall t :: i + 2 <= t < e ==> PathChar(s[t]))
      && (e == |s| || !PathChar(s[e]))
  {
    match FindDrivePath(s, 0)
    case None => None
    case Some(i) => Some((i, PathRunEnd(s, i + 2)))
  }

  /** `directoryRegex.exec(data)`'s whole match, if any. */
  function DrivePath(s: string): (r: Option<string>)
    ensures r.None? <==> forall i :: !DrivePathStartsAt(s, i)
    ensures r.Some? ==> |r.value| >= 3 && IsAsciiLetter(r.value[0]) && r.value[1] == ':'
    ensures r.Some? ==> forall t :: 2 <= t < |r.value| ==> PathChar(r.value[t])
  {
    match DrivePathSpan(s)
    case None => None
    case Some((i, e)) => Some(s[i..e])
  }

  /** A drive path at the very front of the data is taken whole, up to the
      first character that cannot be part of it. */
  lemma DrivePathAtFront(drive: char, path: string, stop: char, rest: string)
    requires IsAsciiLetter(drive)
    requires |path| > 0 && forall t :: 0 <= t < |path| ==> PathChar(path[t])
    requires !PathChar(stop)
    ensures DrivePath([drive, ':'] + path + [stop] + rest) == Some([drive, ':'] + path)
  {
    var s := [drive, ':'] + path + [stop] + rest;
    assert DrivePathStartsAt(s, 0);
    var e := |path| + 2;
    assert s[e] == stop;
    assert forall t :: 2 <= t < e ==> s[t] == path[t - 2];
    assert PathRunEnd(s, 2) == e;
    assert s[0..e] == [drive, ':'] + path;
  }

  // ---------------------------------------------------------------------
  // setCwd

  /** `setCwd`. On Windows the directory is read from the data chunk; if
      there is no chunk or no match nothing happens, otherwise `cwd` is the
      match and `git` is refreshed for it. Elsewhere `cwd` becomes the
      trimmed `lsof` output, even when the command failed, and `git` is
      refreshed for that. In both cases the probes run in the new `cwd`. */
  function SetCwd(st: SessionState, windows: bool, req: Refresh, world: World): (r: SessionState)
    ensures r.pid == st.pid
    ensures windows && (req.data.None? || req.data.value == []) ==> r == st
    ensures windows && req.data.Some? && (forall i :: !DrivePathStartsAt(req.data.value, i)) ==> r == st
    ensures windows && req.data.Some? && DrivePathSpan(req.data.value).Some? ==>
      var (i, e) := DrivePathSpan(req.data.value).value;
      var dir := req.data.value[i..e];
      r.cwd == Some(dir) && r.git == SetGit(st.git, world.repo(dir))
    ensures !windows ==>
      var dir := Trim(world.lsof(req.pid).stdout);
      r.cwd == Some(dir) && r.git == SetGit(st.git, world.repo(dir))
  {
    if windows then
      match req.data
      case None => st
      case Some(data) =>
        if data == [] then st
        else
          match DrivePath(data)
          case None => st
          case Some(dir) => st.(cwd := Some(dir), git := SetGit(st.git, world.repo(dir)))
    else
      var dir := Trim(world.lsof(req.pid).stdout);
      st.(cwd := Some(dir), git := SetGit(st.git, world.repo(dir)))
  }
}
